=== FILE: README.md ===
# GLFramebuffer: a verified model

This project models the offscreen render target of the fuel deferred renderer:
the `GLFramebuffer` class in `fuel/graphics/GLFramebuffer.cpp`. A framebuffer
owns named texture attachments and resolves the channel layout and component
datatype of each texture format. Each attachment gets either the depth slot or
the next colour slot, in creation order. The framebuffer then declares which
attachments are draw buffers. Binding it for reading places colour slot k at
texture unit k and depth after all colour units. One attachment can also be
previewed through the blit shader, at the unit the read binding gave it.
Finally, the destructor releases every texture the framebuffer owns.

The model is split into these files:

- `gl_enums.dfy`: the OpenGL enumerants the class uses, with their numeric
  values. `ColorAttachment(k)` stands for `GL_COLOR_ATTACHMENT0 + k`.
- `formats.dfy`: `getColorFormat` and `getDatatype` as functions, checked
  against an independent table of the nine supported formats (`Describe`).
- `registry.dfy`: the attachment registry as a value. It holds the name-keyed
  map and the colour count, the slot rule, and the effect of one `attach`
  (`AfterAttach`). It also replays any sequence of `attach` calls (`Replay`),
  with lemmas about creation order, repeated names and the registry
  invariant (`WellFormed`).
- `binding.dfy`: the searches over the attachment map and the unit layout of
  a read binding (`ReadLayout`). It also holds the unit the preview computes,
  and the draw-buffer loop.
- `gl_context.dfy`: the part of the OpenGL context the class changes. That is
  texture objects and their storage, the texture at each unit, the draw-buffer
  list and the draw framebuffer. It is an object passed to every operation.
- `framebuffer.dfy`: the `Framebuffer` class itself. Its methods update its
  fields and the context in place. Each method is proved against the
  functions and predicates above.
- `example.dfy`: the G-buffer that `core/Main.cpp` sets up. It is replayed
  call by call to the registry it yields.

### Modelling choices

- A `std::map` is searched in an arbitrary order here (`:|` over the keys
  not yet visited). So every promise about `bind` and the preview holds for
  every order.
- `operator[]` inserts a value-initialised entry for an unknown name. This
  entry is `DefaultAttachment`: an empty name, no texture, and `GL_NONE` in
  every enumerant field, the slot included.
- `std::map::insert` keeps the value already stored under a key. This is
  `Insert`.
- Texture names come from a counter in the context. The name `attach` will
  receive is `gl.nextTexture` at the time of the call.

The model keeps three behaviours of the code a caller might not expect:

- `setDrawAttachments` does not reject an unknown name. `operator[]` at
  `fuel/graphics/GLFramebuffer.cpp:134` adds a default entry for it, and
  that entry's slot, `GL_NONE`, becomes the draw buffer.
- A second depth attachment under another name is accepted, and both keep
  the depth slot: `findAttachmentSlot` gives the depth slot to every depth
  format (line 88), and `insert` (line 124) only refuses a taken name.
  Which one `bind(READ)` places at the depth unit then depends on the
  search order. The model's `ReadLayout` allows either, and
  `ReadLayoutDeterministic` proves order independence when there is only one
  depth attachment.
- `attach` accepts the 16-bit formats as well as the 32-bit ones. Its error
  message (line 98) lists only the 32-bit formats, but `getColorFormat` and
  `getDatatype` (lines 36-84) resolve the 16-bit ones too.

## Model

| member | source | states |
|---|---|---|
| Formats.GetColorFormat | fuel/graphics/GLFramebuffer.cpp:36-57 | RGB exactly for the four three-channel formats of the table, RGBA exactly for the four-channel ones, DEPTH_COMPONENT exactly for the depth format, GL_NONE exactly outside the table |
| Formats.GetDatatype | fuel/graphics/GLFramebuffer.cpp:59-84 | HALF_FLOAT exactly for 16-bit float formats, FLOAT exactly for 32-bit float formats (depth included), UNSIGNED_SHORT / UNSIGNED_INT exactly for 16- / 32-bit integer formats, GL_NONE exactly outside the table |
| Formats.FormatFunctionsAgree | fuel/graphics/GLFramebuffer.cpp:95 | the two lookups fail on exactly the same formats, so `attach` accepts exactly the nine listed formats |
| AttachmentRegistry.Insert | fuel/graphics/GLFramebuffer.cpp:124 | the key set grows by the key; every existing key keeps its value; a new key gets the given value |
| AttachmentRegistry.AttachAssignsSlot | fuel/graphics/GLFramebuffer.cpp:86-128 | an unsupported format leaves the registry unchanged; a supported one raises the colour count by one exactly for colour formats; a new name stores the entry with the fresh texture and the depth slot or colour slot `colorCount`; a taken name keeps the map unchanged |
| AttachmentRegistry.AttachKeepsEntry | fuel/graphics/GLFramebuffer.cpp:124 | an entry already stored survives any `attach`, unchanged |
| AttachmentRegistry.AttachPreservesWellFormed | fuel/graphics/GLFramebuffer.cpp:92-128 | `attach` keeps the invariant: every entry consistent with its format and below the colour count, and no two entries sharing a colour slot |
| AttachmentRegistry.DuplicateAttachLeaks | fuel/graphics/GLFramebuffer.cpp:105-127 | attaching a colour format under a taken name leaves the map unchanged, so no entry holds the new texture, yet the colour count still rises by one |
| AttachmentRegistry.ReplayColorCount | fuel/graphics/GLFramebuffer.cpp:126-127 | after any sequence of calls the colour count has grown by the number of calls with a supported colour format |
| AttachmentRegistry.ReplayWellFormed | fuel/graphics/GLFramebuffer.cpp:92-128 | any sequence of calls keeps the registry invariant |
| AttachmentRegistry.ReplayKeepsEntry | fuel/graphics/GLFramebuffer.cpp:124 | a stored entry is never replaced by later calls |
| AttachmentRegistry.ReplayKeepsAbsent | fuel/graphics/GLFramebuffer.cpp:95-100 | a name that no accepted call uses never enters the map |
| AttachmentRegistry.ReplayAppend | fuel/graphics/GLFramebuffer.cpp:92-128 | replaying two call sequences one after the other is replaying the first, then the second from the registry the first left |
| AttachmentRegistry.ColorCallsAppend | fuel/graphics/GLFramebuffer.cpp:126-127 | the colour calls of two sequences run one after the other add up |
| AttachmentRegistry.ReplayEntry | fuel/graphics/GLFramebuffer.cpp:86-124 | the first accepted call with a name is the entry stored under it, with its texture, formats and a slot numbered by the colour calls before it |
| AttachmentRegistry.ColorCallSlot | fuel/graphics/GLFramebuffer.cpp:86-90 | a colour call that is first with its name gets colour slot colorCount + (colour calls before it) |
| AttachmentRegistry.OrderedColorSlots | fuel/graphics/GLFramebuffer.cpp:86-90 | of two fresh colour calls, the later one's slot is the earlier one's plus one plus the colour calls between them |
| AttachmentRegistry.ReplaySwap | fuel/graphics/GLFramebuffer.cpp:86-90 | exchanging any two fresh colour calls, when the calls before the later one use neither name, exchanges their slots: slots follow call order |
| GLState.Unbind | fuel/graphics/GLFramebuffer.cpp:205 | after textures are deleted no unit holds any of them, and every unit that held another texture keeps it |
| GLState.GLContext.constructor | fuel/graphics/GLFramebuffer.cpp:105 | texture names start at 1; a context with no live textures, no bound units, no draw buffers and the default draw framebuffer |
| GLState.GLContext.GenTexture | fuel/graphics/GLFramebuffer.cpp:105 | the new texture name was not live before and is live now, and the name counter moves on by one |
| GLState.GLContext.TexImage2D | fuel/graphics/GLFramebuffer.cpp:111 | the texture's storage becomes the given image, other textures keep theirs |
| GLState.GLContext.DeleteTexture | fuel/graphics/GLFramebuffer.cpp:205 | the texture is no longer live and its storage is gone, every other texture stays as it was, and every unit that held it now holds none (`Unbind`) |
| GLState.GLContext.BindTexture | fuel/graphics/GLFramebuffer.cpp:155 | the unit holds the texture, every other unit keeps its own |
| GLState.GLContext.DrawBuffers | fuel/graphics/GLFramebuffer.cpp:136 | the draw-buffer list becomes the given list |
| GLState.GLContext.BindDrawFramebuffer | fuel/graphics/GLFramebuffer.cpp:173 | the draw framebuffer becomes the given one |
| GLState.GLContext.DeleteFramebuffer | fuel/graphics/GLFramebuffer.cpp:212 | deleting the framebuffer bound for drawing leaves framebuffer 0 bound; deleting any other leaves the binding as it was |
| Binding.UnitOfSlot | fuel/graphics/GLFramebuffer.cpp:186-188 | colour slot k is shown at unit k, computed as the enumerant's value minus COLOR_ATTACHMENT0's |
| Binding.BoundFromUnaffected | fuel/graphics/GLFramebuffer.cpp:155 | binding at another unit keeps what an earlier search bound |
| Binding.FindFirst | fuel/graphics/GLFramebuffer.cpp:150-158 | the search-and-break loop returns a key whose entry matches, or none exactly when no entry matches |
| Binding.LookupTextureUnit | fuel/graphics/GLFramebuffer.cpp:180-191 | the unit of some entry carrying the name, or 0 when none does; in a well-formed registry, the unit of the entry stored under a non-empty name, or 0 when the name has no entry of its own |
| Binding.CollectDrawBuffers | fuel/graphics/GLFramebuffer.cpp:132-134 | one buffer per name in the given order, each the slot of that name's entry (GL_NONE for an unknown one), and the map gains a default entry exactly for the unknown names |
| Binding.DefaultsKeepWellFormed | fuel/graphics/GLFramebuffer.cpp:134 | the default entries `operator[]` adds keep the registry invariant |
| Binding.DrawSlotsDistinct | fuel/graphics/GLFramebuffer.cpp:130-136 | distinct colour attachments named as draw buffers give distinct draw buffers |
| Binding.UnitLayout | fuel/graphics/GLFramebuffer.cpp:144-188 | a stored attachment shows at a unit in 0..colorCount, at colorCount exactly when it is the depth attachment, and two colour attachments never share a unit |
| Binding.ReadLayoutDeterministic | fuel/graphics/GLFramebuffer.cpp:141-171 | with at most one depth attachment, any two read bindings from the same units agree on every unit, whatever order the map is searched in |
| Binding.ShowAgreesWithBind | fuel/graphics/GLFramebuffer.cpp:178-191 | the unit the preview computes for a stored attachment holds that attachment's texture after the read binding |
| GLFramebuffer.Framebuffer.constructor | fuel/graphics/GLFramebuffer.cpp:13-16 | a framebuffer of the given size with no attachments and colour count 0 |
| GLFramebuffer.Framebuffer.Attach | fuel/graphics/GLFramebuffer.cpp:92-128 | the registry becomes AfterAttach of the old one with the next texture name; an unsupported format creates no texture; a supported one creates exactly one fresh texture with the framebuffer's size, format, layout and datatype; unit 0 ends with no texture bound and the name counter moves on by one; the invariant is kept |
| GLFramebuffer.Framebuffer.SetDrawAttachments | fuel/graphics/GLFramebuffer.cpp:130-137 | the draw buffers are the names' slots in order and of the same length; unknown names gain default entries; everything else in the context is unchanged |
| GLFramebuffer.Framebuffer.BindColorUnits | fuel/graphics/GLFramebuffer.cpp:145-159 | each colour slot below the colour count has its texture at the unit of the same number, and units from the colour count up are untouched |
| GLFramebuffer.Framebuffer.Bind | fuel/graphics/GLFramebuffer.cpp:139-174 | with READ the units follow ReadLayout (colours at 0..N-1, depth at N, nothing above N touched), without READ no unit changes; the draw framebuffer becomes this one exactly with DRAW |
| GLFramebuffer.Framebuffer.ShowAttachmentContent | fuel/graphics/GLFramebuffer.cpp:176-199 | for any name, the unit of some entry whose name field matches it, or 0 when none matches; after the read binding, the shader's unit for a stored attachment holds its texture; a non-empty name with no entry of its own gives unit 0; the attachments and draw configuration are unchanged |
| GLFramebuffer.Framebuffer.DeleteTextures | fuel/graphics/GLFramebuffer.cpp:204-205 | the loop deletes exactly the textures the entries hold, with their storage, and unbinds them from every unit (`Unbind`) |
| GLFramebuffer.Framebuffer.Release | fuel/graphics/GLFramebuffer.cpp:201-215 | every texture an entry held is deleted with its storage and no other texture is, units that held one hold none and every other unit is unchanged (`Unbind`); the map is empty and the name is 0; when the framebuffer had a name and was bound for drawing, framebuffer 0 is bound instead, otherwise the draw binding is unchanged; the name counter, the colour count, the preview unit and the draw-buffer list are unchanged |
| GBufferExample.GBufferStep | core/Main.cpp:28-32 | each G-buffer attach turns the registry of the calls before it into the next one |
| GBufferExample.GBufferReplay | core/Main.cpp:28-32 | the five calls yield depth in the depth slot and diffuse, position, normal, texcoord in colour slots 0 to 3, colour count 4 |
| GBufferExample.GBufferUnits | core/Main.cpp:28-32 | in that registry the lighting pass finds diffuse, position, normal, texcoord at units 0 to 3 and depth at unit 4 |
| GBufferExample.GBufferDrawBuffers | core/Main.cpp:33 | the draw buffers the renderer declares are colour slots 0 to 3 |

## Left out

- The OpenGL effects beyond the state in `GLContext` are not modelled. That covers texture filtering and wrapping parameters and `glFramebufferTexture2D`. Of `glDeleteFramebuffers` the model keeps only its effect on the draw binding (`DeleteFramebuffer`); the read binding is not part of `GLContext`.
- GLState.GLContext.DrawBuffers: the model keeps one draw-buffer list for the whole context and records it whatever framebuffer is bound for drawing. In OpenGL the list belongs to the draw framebuffer bound at the time. GL's rejection of lists it refuses, such as one holding `GL_DEPTH_ATTACHMENT`, is not modelled either.
- The preview's viewport push/pop, the `x, y, w, h` rectangle, the shader's `use` and the fullscreen quad are left out. The model keeps only the unit value handed to the shader (`blitTextureUnit`).
- The blit shader the constructor builds is left out: it loads shader files from disk.
- All `cout`/`cerr` logging is left out; it is output only.
- `glGenFramebuffers` is a parameter of the constructor, the `id` it would return, 0 when it fails.
- The header `GLFramebuffer.h` is not part of this model. The values of `READ` and `DRAW` (1 and 2) are assumed, as are the value-initialised default entry and `GLTexture::unbind(0)` leaving unit 0 with no texture. So are `GLTexture`'s semantics: creation is a fresh name and `delete` a texture deletion.
- GLFramebuffer.Framebuffer.Attach: the colour count is an unbounded integer, so its 32-bit wrap-around is not modelled. The clash of `GL_COLOR_ATTACHMENT0 + 32` with `GL_DEPTH_ATTACHMENT` (both 0x8D00) after 32 colour attachments is not modelled either. `ColorAttachment(k)` is a slot distinct from depth for every k.
- Binding.FindFirst: visits keys in an arbitrary order, not in the ascending key order `std::map` uses. Its contracts hold for every order, so the model does not say which of two entries sharing a slot (two depth attachments, or an empty-named default entry) is found first.
- GLFramebuffer.Framebuffer.Bind: as a consequence, its READ contract is the relation `ReadLayout`. It says some entry in the slot is bound at each unit, not which one.
- GLFramebuffer.Framebuffer.ShowAttachmentContent: that the unit holds the attachment's texture is stated only for a non-empty name with its own entry, and, for the depth attachment, only when it is the only one. For the empty name the contract only says the unit is that of some entry named "" (or 0 when none is). After `setDrawAttachments` has added a default entry, that entry can match, and the unit is then `GL_NONE - GL_COLOR_ATTACHMENT0`, that is -0x8CE0.
- GLFramebuffer.Framebuffer.SetDrawAttachments: `&buffers[0]` on an empty name list is undefined behaviour in the program. The model passes the empty list.
- `core/Main.cpp` beyond its attach and draw-buffer calls is not part of this model (window, input, frame loop, matrix math). Neither are `fuel/graphics/GLBuffer.h`, `fuel/graphics/GLBuffer.cpp`, `graphics/GLAttributeList.h` and `fuel/graphics/GLWindowSettings.h`: they are thin GL wrappers and plain data with no logic of the framebuffer's.

=== FILE: binding.dfy ===
/**
 * What reading the attachments looks like from the shaders: the texture-unit
 * layout `bind(READ)` produces, the unit `showAttachmentContent` computes for
 * a name, the searches over the attachment map both use, and the draw-buffer
 * list `setDrawAttachments` builds.
 *
 * The program searches a std::map in its own iteration order.  The searches
 * here pick the next key arbitrarily, so what they promise holds for every
 * iteration order.
 */
module Binding {
  import opened GL
  import opened Wrappers
  import opened AttachmentRegistry

  /** The texture unit that shows the attachment in `slot`: the depth slot
      comes after all colour units, and colour slot k is unit k.  The
      arithmetic is that of the program on the enumerants' values. */
  function UnitOfSlot(slot: GLenum, colorCount: nat): (unit: int)
    ensures slot.ColorAttachment? ==> unit == slot.index
  {
    if slot == DepthAttachment then colorCount else Code(slot) - Code(ColorAttachment(0))
  }

  /** The texture bound at `unit`, NoTexture when none is. */
  function UnitTexture(units: map<nat, TextureRef>, unit: nat): TextureRef
  {
    if unit in units then units[unit] else NoTexture
  }

  ghost predicate HasSlot(attachments: map<string, Attachment>, slot: GLenum)
  {
    exists k :: k in attachments && attachments[k].slot == slot
  }

  /** After the search for `slot`, `unit` holds the texture of an attachment
      in that slot, or is as it was when no attachment has the slot. */
  ghost predicate BoundFrom(attachments: map<string, Attachment>, slot: GLenum, unit: nat,
                            before: map<nat, TextureRef>, after: map<nat, TextureRef>)
  {
    if HasSlot(attachments, slot) then
      exists k :: k in attachments && attachments[k].slot == slot && UnitTexture(after, unit) == attachments[k].texture
    else
      UnitTexture(after, unit) == UnitTexture(before, unit)
  }

  /** The unit layout of the read binding: colour slot k at unit k for every
      k below the colour count, depth at unit colorCount, and every unit
      above that left alone. */
  ghost predicate ReadLayout(attachments: map<string, Attachment>, colorCount: nat,
                             before: map<nat, TextureRef>, after: map<nat, TextureRef>)
  {
    && (forall k: nat :: k < colorCount ==> BoundFrom(attachments, ColorAttachment(k), k, before, after))
    && BoundFrom(attachments, DepthAttachment, colorCount, before, after)
    && (forall u: nat :: u > colorCount ==> UnitTexture(after, u) == UnitTexture(before, u))
  }

  /** Binding a texture at another unit keeps what a search bound at `unit`. */
  lemma BoundFromUnaffected(attachments: map<string, Attachment>, slot: GLenum, unit: nat,
                            before: map<nat, TextureRef>, units: map<nat, TextureRef>, other: nat, t: TextureRef)
    requires unit != other
    requires BoundFrom(attachments, slot, unit, before, units)
    ensures BoundFrom(attachments, slot, unit, before, units[other := t])
  {
    assert UnitTexture(units[other := t], unit) == UnitTexture(units, unit);
  }

  /** At most one attachment sits in the depth slot. */
  ghost predicate SingleDepth(attachments: map<string, Attachment>)
  {
    forall k, j ::
      (k in attachments && j in attachments &&
       attachments[k].slot == DepthAttachment && attachments[j].slot == DepthAttachment) ==> k == j
  }

  /** The search-and-break loop over the attachment map: the key of some entry
      that `matches`, or None when no entry does. */
  method FindFirst(attachments: map<string, Attachment>, matches: Attachment -> bool)
    returns (found: Option<string>)
    ensures found.Some? ==> found.value in attachments && matches(attachments[found.value])
    ensures found.None? ==> forall k :: k in attachments ==> !matches(attachments[k])
  {
    var rest := attachments.Keys;
    while rest != {}
      invariant rest <= attachments.Keys
      invariant forall k :: k in attachments && k !in rest ==> !matches(attachments[k])
      decreases rest
    {
      var k :| k in rest;
      if matches(attachments[k]) {
        return Some(k);
      }
      rest := rest - {k};
    }
    return None;
  }

  /** The unit `showAttachmentContent` passes to the blit shader for `name`:
      the unit of the first entry whose stored name is `name`, or 0 when
      there is none.  In a well-formed registry a non-empty name finds the
      entry `attach` stored under it, if any, and 0 otherwise. */
  method LookupTextureUnit(attachments: map<string, Attachment>, colorCount: nat, name: string)
    returns (unit: int)
    ensures (exists k :: k in attachments && attachments[k].name == name) ==>
      exists k :: k in attachments && attachments[k].name == name && unit == UnitOfSlot(attachments[k].slot, colorCount)
    ensures (forall k :: k in attachments ==> attachments[k].name != name) ==> unit == 0
    ensures (WellFormed(Registry(attachments, colorCount)) && name != "" && name in attachments &&
             attachments[name] != DefaultAttachment) ==>
      unit == UnitOfSlot(attachments[name].slot, colorCount)
    ensures (WellFormed(Registry(attachments, colorCount)) && name != "" &&
             (name !in attachments || attachments[name] == DefaultAttachment)) ==> unit == 0
  {
    var found := FindFirst(attachments, (a: Attachment) => a.name == name);
    unit := 0;
    if found.Some? {
      unit := UnitOfSlot(attachments[found.value].slot, colorCount);
      assert WellFormed(Registry(attachments, colorCount)) && name != "" ==> found.value == name by {
        if WellFormed(Registry(attachments, colorCount)) && name != "" {
          assert EntryOk(found.value, attachments[found.value], colorCount);
        }
      }
    }
  }

  /** The slot `setDrawAttachments` lists for `name`: its entry's slot, or the
      GL_NONE slot of the entry `operator[]` creates for an unknown name. */
  function DrawSlot(attachments: map<string, Attachment>, name: string): GLenum
  {
    if name in attachments then attachments[name].slot else DefaultAttachment.slot
  }

  /** The loop of `setDrawAttachments`: one slot per name, in order, and the
      map with a default entry added for every name it did not hold. */
  method CollectDrawBuffers(attachments: map<string, Attachment>, names: seq<string>)
    returns (buffers: seq<GLenum>, attachments': map<string, Attachment>)
    ensures |buffers| == |names|
    ensures forall i :: 0 <= i < |names| ==> buffers[i] == DrawSlot(attachments, names[i])
    ensures forall k :: k in attachments' <==> k in attachments || k in names
    ensures forall k :: k in attachments' ==>
      attachments'[k] == if k in attachments then attachments[k] else DefaultAttachment
  {
    buffers := [];
    attachments' := attachments;
    var i := 0;
    while i < |names|
      invariant 0 <= i <= |names|
      invariant |buffers| == i
      invariant forall j :: 0 <= j < i ==> buffers[j] == DrawSlot(attachments, names[j])
      invariant forall k :: k in attachments' <==> k in attachments || k in names[..i]
      invariant forall k :: k in attachments' ==>
        attachments'[k] == if k in attachments then attachments[k] else DefaultAttachment
    {
      if names[i] !in attachments' {
        attachments' := attachments'[names[i] := DefaultAttachment];
      }
      buffers := buffers + [attachments'[names[i]].slot];
      assert names[..i + 1] == names[..i] + [names[i]];
      i := i + 1;
    }
    assert names[..i] == names;
  }

  /** The default entries `setDrawAttachments` adds keep the registry
      invariant. */
  lemma DefaultsKeepWellFormed(r: Registry, attachments': map<string, Attachment>)
    requires WellFormed(r)
    requires r.attachments.Keys <= attachments'.Keys
    requires forall k :: k in attachments' ==>
      attachments'[k] == if k in r.attachments then r.attachments[k] else DefaultAttachment
    ensures WellFormed(Registry(attachments', r.colorCount))
  {
    forall k | k in attachments'
      ensures EntryOk(k, attachments'[k], r.colorCount)
    {
      if k in r.attachments {
        assert EntryOk(k, r.attachments[k], r.colorCount);
      }
    }
  }

  /** Naming distinct colour attachments selects distinct draw buffers, as
      glDrawBuffers requires. */
  lemma DrawSlotsDistinct(r: Registry, names: seq<string>)
    requires WellFormed(r)
    requires forall i :: 0 <= i < |names| ==> names[i] in r.attachments && r.attachments[names[i]].slot.ColorAttachment?
    requires forall i, j :: 0 <= i < j < |names| ==> names[i] != names[j]
    ensures forall i, j :: 0 <= i < j < |names| ==> DrawSlot(r.attachments, names[i]) != DrawSlot(r.attachments, names[j])
  {
  }

  /** The unit layout: an attachment `attach` stored shows at a unit between
      0 and the colour count, at the colour count exactly when it is the depth
      attachment, and two colour attachments never share a unit. */
  lemma UnitLayout(r: Registry, name: string, other: string)
    requires WellFormed(r)
    requires name in r.attachments && r.attachments[name] != DefaultAttachment
    ensures 0 <= UnitOfSlot(r.attachments[name].slot, r.colorCount) <= r.colorCount
    ensures UnitOfSlot(r.attachments[name].slot, r.colorCount) == r.colorCount <==>
      r.attachments[name].textureFormat == DepthComponent32F
    ensures (other in r.attachments && other != name && r.attachments[other] != DefaultAttachment &&
             r.attachments[name].textureFormat != DepthComponent32F) ==>
      UnitOfSlot(r.attachments[name].slot, r.colorCount) != UnitOfSlot(r.attachments[other].slot, r.colorCount)
  {
    assert EntryOk(name, r.attachments[name], r.colorCount);
    if other in r.attachments && other != name && r.attachments[other] != DefaultAttachment {
      assert EntryOk(other, r.attachments[other], r.colorCount);
    }
  }

  /** The read binding does not depend on the order in which the map is
      searched: when no two attachments share the depth slot, two bindings
      from the same starting units agree on every unit. */
  lemma ReadLayoutDeterministic(r: Registry, before: map<nat, TextureRef>,
                                after1: map<nat, TextureRef>, after2: map<nat, TextureRef>, unit: nat)
    requires WellFormed(r) && SingleDepth(r.attachments)
    requires ReadLayout(r.attachments, r.colorCount, before, after1)
    requires ReadLayout(r.attachments, r.colorCount, before, after2)
    ensures UnitTexture(after1, unit) == UnitTexture(after2, unit)
  {
    var slot := if unit < r.colorCount then ColorAttachment(unit) else DepthAttachment;
    if unit <= r.colorCount {
      assert BoundFrom(r.attachments, slot, unit, before, after1);
      assert BoundFrom(r.attachments, slot, unit, before, after2);
      if HasSlot(r.attachments, slot) {
        var k1 :| k1 in r.attachments && r.attachments[k1].slot == slot && UnitTexture(after1, unit) == r.attachments[k1].texture;
        var k2 :| k2 in r.attachments && r.attachments[k2].slot == slot && UnitTexture(after2, unit) == r.attachments[k2].texture;
        assert k1 == k2;
      }
    }
  }

  /** The unit `showAttachmentContent` computes for an attachment is the unit
      at which the read binding placed that attachment's texture (for the
      depth attachment, when it is the only one). */
  lemma ShowAgreesWithBind(r: Registry, before: map<nat, TextureRef>, after: map<nat, TextureRef>, name: string)
    requires WellFormed(r)
    requires ReadLayout(r.attachments, r.colorCount, before, after)
    requires name in r.attachments && r.attachments[name] != DefaultAttachment
    requires r.attachments[name].slot == DepthAttachment ==> SingleDepth(r.attachments)
    ensures 0 <= UnitOfSlot(r.attachments[name].slot, r.colorCount)
    ensures UnitTexture(after, UnitOfSlot(r.attachments[name].slot, r.colorCount) as nat) == r.attachments[name].texture
  {
    var a := r.attachments[name];
    assert EntryOk(name, a, r.colorCount);
    var unit := UnitOfSlot(a.slot, r.colorCount) as nat;
    if a.slot == DepthAttachment {
      assert BoundFrom(r.attachments, DepthAttachment, unit, before, after);
    } else {
      assert BoundFrom(r.attachments, ColorAttachment(unit), unit, before, after);
    }
    assert HasSlot(r.attachments, a.slot);
    var k :| k in r.attachments && r.attachments[k].slot == a.slot && UnitTexture(after, unit) == r.attachments[k].texture;
    assert k == name;
  }
}

=== FILE: example.dfy ===
/**
 * The G-buffer the deferred renderer sets up: a depth attachment followed by
 * four RGB32F colour attachments, with the four colour attachments as draw
 * buffers.
 */
module GBufferExample {
  import opened GL
  import opened AttachmentRegistry
  import opened Binding

  const GBufferCalls: seq<AttachCall> := [
    AttachCall("depth", DepthComponent32F, 1),
    AttachCall("diffuse", Rgb32F, 2),
    AttachCall("position", Rgb32F, 3),
    AttachCall("normal", Rgb32F, 4),
    AttachCall("texcoord", Rgb32F, 5)
  ]

  function ColorEntry(name: string, texture: nat, k: nat): Attachment
  {
    Attachment(name, Texture(texture), Rgb32F, Rgb, Float, ColorAttachment(k))
  }

  /** The registry after the G-buffer calls, entry by entry. */
  const GBuffer := Registry(map[
    "depth" := Attachment("depth", Texture(1), DepthComponent32F, DepthComponent, Float, DepthAttachment),
    "diffuse" := ColorEntry("diffuse", 2, 0),
    "position" := ColorEntry("position", 3, 1),
    "normal" := ColorEntry("normal", 4, 2),
    "texcoord" := ColorEntry("texcoord", 5, 3)], 4)

  /** The registry after the first n G-buffer calls. */
  function GBufferAfter(n: nat): Registry
    requires n <= 5
  {
    if n == 0 then EmptyRegistry
    else if n == 1 then Registry(map["depth" := GBuffer.attachments["depth"]], 0)
    else if n == 2 then Registry(GBufferAfter(1).attachments["diffuse" := ColorEntry("diffuse", 2, 0)], 1)
    else if n == 3 then Registry(GBufferAfter(2).attachments["position" := ColorEntry("position", 3, 1)], 2)
    else if n == 4 then Registry(GBufferAfter(3).attachments["normal" := ColorEntry("normal", 4, 2)], 3)
    else Registry(GBufferAfter(4).attachments["texcoord" := ColorEntry("texcoord", 5, 3)], 4)
  }

  lemma GBufferStep(n: nat)
    requires 0 < n <= 5
    ensures AfterAttach(GBufferAfter(n - 1), GBufferCalls[n - 1].name, GBufferCalls[n - 1].format,
                        GBufferCalls[n - 1].texture) == GBufferAfter(n)
  {
    var call := GBufferCalls[n - 1];
    assert call.name !in GBufferAfter(n - 1).attachments;
    AttachAssignsSlot(GBufferAfter(n - 1), call.name, call.format, call.texture);
  }

  /** Replaying the calls one by one yields the registry above. */
  lemma GBufferReplay()
    ensures Replay(EmptyRegistry, GBufferCalls) == GBuffer
  {
    assert GBufferCalls[..0] == [];
    for n := 0 to 5
      invariant Replay(EmptyRegistry, GBufferCalls[..n]) == GBufferAfter(n)
    {
      ReplayStep(EmptyRegistry, GBufferCalls, n);
      GBufferStep(n + 1);
    }
    assert GBufferCalls[..5] == GBufferCalls;
    assert GBufferAfter(5) == GBuffer;
  }

  /** In the registry the calls build, depth takes the depth slot and the
      colour attachments take colour slots 0 to 3 in the order they were
      attached, so the lighting pass samples diffuse, position, normal and
      texcoord at units 0 to 3 and depth at unit 4. */
  lemma GBufferUnits()
    ensures GBuffer.colorCount == 4
    ensures UnitOfSlot(GBuffer.attachments["diffuse"].slot, 4) == 0
    ensures UnitOfSlot(GBuffer.attachments["position"].slot, 4) == 1
    ensures UnitOfSlot(GBuffer.attachments["normal"].slot, 4) == 2
    ensures UnitOfSlot(GBuffer.attachments["texcoord"].slot, 4) == 3
    ensures UnitOfSlot(GBuffer.attachments["depth"].slot, 4) == 4
  {
  }

  /** Declaring the four colour attachments as draw buffers, in the order
      the renderer lists them, selects colour slots 0 to 3. */
  lemma GBufferDrawBuffers()
    ensures forall i :: 0 <= i < 4 ==>
      DrawSlot(GBuffer.attachments, ["diffuse", "position", "normal", "texcoord"][i]) == ColorAttachment(i)
  {
  }
}

=== FILE: formats.dfy ===
/**
 * Format resolution: the two lookups that turn a sized texture format into the
 * channel layout and the component datatype glTexImage2D needs, with GL_NONE
 * as the answer for a format the framebuffer does not support.
 */
module Formats {
  import opened GL
  import opened Wrappers

  /** Numeric kind of the values a format stores. */
  datatype Kind = FloatingPoint | UnsignedInteger

  /** What a sized format stores per pixel, read off its name: a number of
      colour channels or a single depth value, each of `bits` bits of `kind`. */
  datatype PixelLayout =
    | Color(channels: nat, bits: nat, kind: Kind)
    | Depth(bits: nat, kind: Kind)

  /** Reference table of the nine formats a framebuffer attachment may use. */
  function Describe(format: GLenum): Option<PixelLayout>
  {
    match format
    case Rgb16F => Some(Color(3, 16, FloatingPoint))
    case Rgb16UI => Some(Color(3, 16, UnsignedInteger))
    case Rgb32F => Some(Color(3, 32, FloatingPoint))
    case Rgb32UI => Some(Color(3, 32, UnsignedInteger))
    case Rgba16F => Some(Color(4, 16, FloatingPoint))
    case Rgba16UI => Some(Color(4, 16, UnsignedInteger))
    case Rgba32F => Some(Color(4, 32, FloatingPoint))
    case Rgba32UI => Some(Color(4, 32, UnsignedInteger))
    case DepthComponent32F => Some(Depth(32, FloatingPoint))
    case _ => None
  }

  /** The channel layout of a sized format: RGB for the three-channel formats,
      RGBA for the four-channel ones, DEPTH_COMPONENT for depth, and GL_NONE
      for every format outside the table. */
  function GetColorFormat(format: GLenum): (layout: GLenum)
    ensures layout == Rgb <==>
      Describe(format).Some? && Describe(format).value.Color? && Describe(format).value.channels == 3
    ensures layout == Rgba <==>
      Describe(format).Some? && Describe(format).value.Color? && Describe(format).value.channels == 4
    ensures layout == DepthComponent <==> Describe(format).Some? && Describe(format).value.Depth?
    ensures layout == GlNone <==> Describe(format).None?
  {
    if format == Rgb32F || format == Rgb32UI || format == Rgb16F || format == Rgb16UI then Rgb
    else if format == Rgba32F || format == Rgba32UI || format == Rgba16F || format == Rgba16UI then Rgba
    else if format == DepthComponent32F then DepthComponent
    else GlNone
  }

  /** The component datatype of a sized format: half floats for the 16-bit
      float formats, floats for the 32-bit float and depth formats, unsigned
      shorts and ints for the 16- and 32-bit integer formats, GL_NONE else. */
  function GetDatatype(format: GLenum): (dataType: GLenum)
    ensures dataType == HalfFloat <==>
      Describe(format).Some? && Describe(format).value.bits == 16 && Describe(format).value.kind == FloatingPoint
    ensures dataType == Float <==>
      Describe(format).Some? && Describe(format).value.bits == 32 && Describe(format).value.kind == FloatingPoint
    ensures dataType == UnsignedShort <==>
      Describe(format).Some? && Describe(format).value.bits == 16 && Describe(format).value.kind == UnsignedInteger
    ensures dataType == UnsignedInt <==>
      Describe(format).Some? && Describe(format).value.bits == 32 && Describe(format).value.kind == UnsignedInteger
    ensures dataType == GlNone <==> Describe(format).None?
  {
    if format == Rgb16F || format == Rgba16F then HalfFloat
    else if format == Rgb32F || format == Rgba32F || format == DepthComponent32F then Float
    else if format == Rgb16UI || format == Rgba16UI then UnsignedShort
    else if format == Rgb32UI || format == Rgba32UI then UnsignedInt
    else GlNone
  }

  /** The guard `attach` applies before allocating anything. */
  predicate IsSupported(format: GLenum)
  {
    GetColorFormat(format) != GlNone && GetDatatype(format) != GlNone
  }

  /** A supported format other than depth: one that takes a colour slot. */
  predicate IsColorFormat(format: GLenum)
  {
    IsSupported(format) && format != DepthComponent32F
  }

  /** The two lookups fail on exactly the same formats, so `attach` rejects
      precisely the formats outside the nine listed ones. */
  lemma FormatFunctionsAgree(format: GLenum)
    ensures GetDatatype(format) == GlNone <==> GetColorFormat(format) == GlNone
    ensures IsSupported(format) <==>
      format in {Rgb16F, Rgb16UI, Rgb32F, Rgb32UI, Rgba16F, Rgba16UI, Rgba32F, Rgba32UI, DepthComponent32F}
  {
  }
}

=== FILE: framebuffer.dfy ===
/**
 * The offscreen render target: a framebuffer object that owns named texture
 * attachments, numbers their slots in creation order, selects the draw
 * buffers, binds the attachments for reading at fixed texture units, and
 * previews one attachment through the blit shader.
 */
module GLFramebuffer {
  import opened GL
  import opened Formats
  import opened AttachmentRegistry
  import opened Binding
  import opened GLState

  /** Width and height are 16-bit unsigned integers in the program. */
  type Dimension = x: nat | x < 0x1_0000

  /** The binding targets of `Bind`, combined bitwise. */
  const READ: bv32 := 1
  const DRAW: bv32 := 2

  /** The texture names held by the entries of `m` whose keys are in `keys`. */
  ghost function TexturesOf(m: map<string, Attachment>, keys: set<string>): set<nat>
  {
    set k | k in keys && k in m && m[k].texture.Texture? :: m[k].texture.id
  }

  /** Visiting one more key adds that entry's texture, if any. */
  lemma TexturesOfStep(m: map<string, Attachment>, rest: set<string>, k: string)
    requires k in rest && rest <= m.Keys
    ensures TexturesOf(m, m.Keys - (rest - {k})) ==
      TexturesOf(m, m.Keys - rest) + (if m[k].texture.Texture? then {m[k].texture.id} else {})
  {
  }

  class Framebuffer {
    /** The framebuffer object's name; 0 (GL_NONE) when none could be
        generated, and after release. */
    var id: nat
    const width: Dimension
    const height: Dimension
    var attachments: map<string, Attachment>
    var colorAttachmentCount: nat
    /** The value last given to the blit shader's texture-unit uniform. */
    var blitTextureUnit: int

    ghost function Contents(): Registry
      reads this
    {
      Registry(attachments, colorAttachmentCount)
    }

    ghost predicate Valid()
      reads this
    {
      WellFormed(Contents())
    }

    /** A framebuffer with nothing attached; `id` is what glGenFramebuffers
        returned. */
    constructor (id: nat, width: Dimension, height: Dimension)
      ensures Valid()
      ensures this.id == id && this.width == width && this.height == height
      ensures Contents() == EmptyRegistry
    {
      this.id := id;
      this.width := width;
      this.height := height;
      attachments := map[];
      colorAttachmentCount := 0;
      blitTextureUnit := 0;
    }

    /** Attaches a new texture of `format` under `name`.  An unsupported
        format changes nothing and creates no texture.  Otherwise one fresh
        texture with the framebuffer's size and the resolved layout and
        datatype is created while bound at unit 0, which is left unbound
        afterwards; the registry becomes AfterAttach of the old one with that
        texture (so an existing name keeps its entry), and the colour count
        rises for a colour format. */
    method Attach(name: string, format: GLenum, gl: GLContext)
      requires Valid() && gl.Valid()
      modifies this`attachments, this`colorAttachmentCount, gl`nextTexture, gl`liveTextures, gl`images, gl`units
      ensures Valid() && gl.Valid()
      ensures Contents() == AfterAttach(old(Contents()), name, format, old(gl.nextTexture))
      ensures !IsSupported(format) ==>
        gl.liveTextures == old(gl.liveTextures) && gl.nextTexture == old(gl.nextTexture) && gl.images == old(gl.images)
      ensures !IsSupported(format) ==> gl.units == old(gl.units)
      ensures IsSupported(format) ==>
        && old(gl.nextTexture) !in old(gl.liveTextures)
        && gl.liveTextures == old(gl.liveTextures) + {old(gl.nextTexture)}
        && gl.nextTexture == old(gl.nextTexture) + 1
        && gl.images == old(gl.images)[old(gl.nextTexture) :=
             Image(format, width, height, GetColorFormat(format), GetDatatype(format))]
        && gl.units == old(gl.units)[0 := NoTexture]
      ensures gl.drawBuffers == old(gl.drawBuffers) && gl.drawFramebuffer == old(gl.drawFramebuffer)
    {
      var colorFormat := GetColorFormat(format);
      var dataType := GetDatatype(format);
      if colorFormat == GlNone || dataType == GlNone {
        return;
      }
      var slot := FindAttachmentSlot(format, colorAttachmentCount);
      var texture := gl.GenTexture();
      gl.BindTexture(0, Texture(texture));
      gl.TexImage2D(texture, Image(format, width, height, colorFormat, dataType));
      gl.BindTexture(0, NoTexture);
      var entry := Attachment(name, Texture(texture), format, colorFormat, dataType, slot);
      assert entry == NewEntry(name, format, texture, colorAttachmentCount);
      AttachPreservesWellFormed(Contents(), name, format, texture);
      attachments := Insert(attachments, name, entry);
      if format != DepthComponent32F {
        colorAttachmentCount := colorAttachmentCount + 1;
      }
    }

    /** Declares the draw buffers: one slot per name, in the order given.  A
        name not attached is not rejected: it gets a default entry, and its
        draw buffer is GL_NONE. */
    method SetDrawAttachments(names: seq<string>, gl: GLContext)
      requires Valid()
      modifies this`attachments, gl
      ensures Valid()
      ensures |gl.drawBuffers| == |names|
      ensures forall i :: 0 <= i < |names| ==> gl.drawBuffers[i] == DrawSlot(old(attachments), names[i])
      ensures forall k :: k in attachments <==> k in old(attachments) || k in names
      ensures forall k :: k in attachments ==>
        attachments[k] == if k in old(attachments) then old(attachments)[k] else DefaultAttachment
      ensures gl.units == old(gl.units) && gl.drawFramebuffer == old(gl.drawFramebuffer)
      ensures gl.liveTextures == old(gl.liveTextures) && gl.nextTexture == old(gl.nextTexture)
      ensures gl.images == old(gl.images)
    {
      var buffers, attachments' := CollectDrawBuffers(attachments, names);
      DefaultsKeepWellFormed(Contents(), attachments');
      attachments := attachments';
      gl.DrawBuffers(buffers);
    }

    /** The colour half of binding for reading: for each colour slot k below
        the colour count, the first attachment found in that slot has its
        texture bound at unit k; units from the colour count up keep their
        textures. */
    method BindColorUnits(gl: GLContext)
      modifies gl`units
      ensures forall k: nat :: k < colorAttachmentCount ==>
        BoundFrom(attachments, ColorAttachment(k), k, old(gl.units), gl.units)
      ensures forall u: nat :: u >= colorAttachmentCount ==> UnitTexture(gl.units, u) == UnitTexture(old(gl.units), u)
    {
      var unit: nat := 0;
      while unit < colorAttachmentCount
        invariant unit <= colorAttachmentCount
        invariant forall k: nat :: k < unit ==> BoundFrom(attachments, ColorAttachment(k), k, old(gl.units), gl.units)
        invariant forall u: nat :: u >= unit ==> UnitTexture(gl.units, u) == UnitTexture(old(gl.units), u)
      {
        var found := FindFirst(attachments, (a: Attachment) => a.slot == ColorAttachment(unit));
        if found.Some? {
          ghost var previous := gl.units;
          var texture := attachments[found.value].texture;
          gl.BindTexture(unit, texture);
          forall k: nat | k < unit
            ensures BoundFrom(attachments, ColorAttachment(k), k, old(gl.units), gl.units)
          {
            BoundFromUnaffected(attachments, ColorAttachment(k), k, old(gl.units), previous, unit, texture);
          }
        }
        unit := unit + 1;
      }
    }

    /** Binds the framebuffer.  With READ, every colour slot k below the
        colour count is searched for and its texture bound at unit k, then
        the depth texture at unit colorAttachmentCount (ReadLayout); with
        DRAW, the framebuffer becomes the draw framebuffer.  The attachments
        are not touched. */
    method Bind(gl: GLContext, target: bv32)
      modifies gl
      ensures target & READ != 0 ==> ReadLayout(attachments, colorAttachmentCount, old(gl.units), gl.units)
      ensures target & READ == 0 ==> gl.units == old(gl.units)
      ensures gl.drawFramebuffer == if target & DRAW != 0 then id else old(gl.drawFramebuffer)
      ensures gl.drawBuffers == old(gl.drawBuffers) && gl.images == old(gl.images)
      ensures gl.liveTextures == old(gl.liveTextures) && gl.nextTexture == old(gl.nextTexture)
    {
      if target & READ != 0 {
        BindColorUnits(gl);
        var depth := FindFirst(attachments, (a: Attachment) => a.slot == DepthAttachment);
        if depth.Some? {
          ghost var colored := gl.units;
          var texture := attachments[depth.value].texture;
          gl.BindTexture(colorAttachmentCount, texture);
          forall k: nat | k < colorAttachmentCount
            ensures BoundFrom(attachments, ColorAttachment(k), k, old(gl.units), gl.units)
          {
            BoundFromUnaffected(attachments, ColorAttachment(k), k, old(gl.units), colored, colorAttachmentCount, texture);
          }
        }
      }
      if target & DRAW != 0 {
        gl.BindDrawFramebuffer(id);
      }
    }

    /** Previews attachment `name`: binds for reading, then gives the blit
        shader the unit at which that attachment is bound (0 for a name with
        no entry of its own), which holds the attachment's texture.  Nothing
        but the texture units and the uniform changes. */
    method ShowAttachmentContent(gl: GLContext, name: string)
      requires Valid()
      modifies this`blitTextureUnit, gl
      ensures Valid() && attachments == old(attachments) && colorAttachmentCount == old(colorAttachmentCount)
      ensures ReadLayout(attachments, colorAttachmentCount, old(gl.units), gl.units)
      ensures gl.drawFramebuffer == old(gl.drawFramebuffer) && gl.drawBuffers == old(gl.drawBuffers)
      ensures gl.images == old(gl.images) && gl.liveTextures == old(gl.liveTextures)
      ensures gl.nextTexture == old(gl.nextTexture)
      ensures (name != "" && name in attachments && attachments[name] != DefaultAttachment) ==>
        blitTextureUnit == UnitOfSlot(attachments[name].slot, colorAttachmentCount)
      ensures (name != "" && name in attachments && attachments[name] != DefaultAttachment &&
               (attachments[name].slot == DepthAttachment ==> SingleDepth(attachments))) ==>
        blitTextureUnit >= 0 && UnitTexture(gl.units, blitTextureUnit as nat) == attachments[name].texture
      ensures (name != "" && (name !in attachments || attachments[name] == DefaultAttachment)) ==>
        blitTextureUnit == 0
      ensures (exists k :: k in attachments && attachments[k].name == name) ==>
        exists k :: k in attachments && attachments[k].name == name &&
          blitTextureUnit == UnitOfSlot(attachments[k].slot, colorAttachmentCount)
      ensures (forall k :: k in attachments ==> attachments[k].name != name) ==> blitTextureUnit == 0
    {
      Bind(gl, READ);
      var unit := LookupTextureUnit(attachments, colorAttachmentCount, name);
      blitTextureUnit := unit;
      if name != "" && name in attachments && attachments[name] != DefaultAttachment &&
         (attachments[name].slot == DepthAttachment ==> SingleDepth(attachments)) {
        ShowAgreesWithBind(Contents(), old(gl.units), gl.units, name);
      }
    }

    /** Deletes the texture of every entry, one entry at a time; the map
        itself is left as it is. */
    method DeleteTextures(gl: GLContext)
      requires gl.Valid()
      modifies gl`liveTextures, gl`units, gl`images
      ensures gl.Valid()
      ensures gl.liveTextures == old(gl.liveTextures) - TexturesOf(attachments, attachments.Keys)
      ensures gl.units == Unbind(old(gl.units), TexturesOf(attachments, attachments.Keys))
      ensures gl.images == old(gl.images) - TexturesOf(attachments, attachments.Keys)
    {
      var rest := attachments.Keys;
      while rest != {}
        invariant rest <= attachments.Keys
        invariant gl.Valid()
        invariant gl.liveTextures == old(gl.liveTextures) - TexturesOf(attachments, attachments.Keys - rest)
        invariant gl.units == Unbind(old(gl.units), TexturesOf(attachments, attachments.Keys - rest))
        invariant gl.images == old(gl.images) - TexturesOf(attachments, attachments.Keys - rest)
        decreases rest
      {
        var k :| k in rest;
        var texture := attachments[k].texture;
        if texture.Texture? {
          gl.DeleteTexture(texture.id);
          UnbindTwice(old(gl.units), TexturesOf(attachments, attachments.Keys - rest), {texture.id});
          assert gl.images == old(gl.images) - (TexturesOf(attachments, attachments.Keys - rest) + {texture.id});
        }
        TexturesOfStep(attachments, rest, k);
        rest := rest - {k};
      }
      assert attachments.Keys - rest == attachments.Keys;
    }

    /** The destructor: every texture an entry holds is deleted, the map is
        emptied and the framebuffer object, when there is one, is deleted. */
    method Release(gl: GLContext)
      requires gl.Valid()
      modifies this`attachments, this`id, gl`liveTextures, gl`units, gl`images, gl`drawFramebuffer
      ensures gl.Valid()
      ensures attachments == map[] && id == 0
      ensures colorAttachmentCount == old(colorAttachmentCount) && blitTextureUnit == old(blitTextureUnit)
      ensures gl.nextTexture == old(gl.nextTexture)
      ensures gl.liveTextures == old(gl.liveTextures) - TexturesOf(old(attachments), old(attachments).Keys)
      ensures gl.units == Unbind(old(gl.units), TexturesOf(old(attachments), old(attachments).Keys))
      ensures gl.images == old(gl.images) - TexturesOf(old(attachments), old(attachments).Keys)
      ensures gl.drawBuffers == old(gl.drawBuffers)
      ensures gl.drawFramebuffer == if old(id) != 0 && old(gl.drawFramebuffer) == old(id) then 0 else old(gl.drawFramebuffer)
    {
      DeleteTextures(gl);
      attachments := map[];
      if id != 0 {
        gl.DeleteFramebuffer(id);
        id := 0;
      }
    }
  }
}

=== FILE: gl_context.dfy ===
/**
 * The part of the OpenGL context the framebuffer changes: texture objects and
 * their storage, the texture bound at each texture unit, the draw-buffer list
 * and the framebuffer bound for drawing.  Each method is one GL call.
 */
module GLState {
  import opened GL
  import opened AttachmentRegistry

  /** The storage glTexImage2D gives a texture. */
  datatype Image = Image(internalFormat: GLenum, width: nat, height: nat, colorFormat: GLenum, dataType: GLenum)

  /** The unit map after the textures in `dead` are deleted: a unit that
      held one of them holds none, every other unit keeps its texture. */
  function Unbind(units: map<nat, TextureRef>, dead: set<nat>): (r: map<nat, TextureRef>)
    ensures r.Keys == units.Keys
    ensures forall u :: u in r ==> !(r[u].Texture? && r[u].id in dead)
    ensures forall u :: u in r && !(units[u].Texture? && units[u].id in dead) ==> r[u] == units[u]
  {
    map u | u in units :: if units[u].Texture? && units[u].id in dead then NoTexture else units[u]
  }

  /** Deleting two sets of textures one after the other unbinds both. */
  lemma UnbindTwice(units: map<nat, TextureRef>, a: set<nat>, b: set<nat>)
    ensures Unbind(Unbind(units, a), b) == Unbind(units, a + b)
  {
    var left, right := Unbind(Unbind(units, a), b), Unbind(units, a + b);
    assert left.Keys == right.Keys;
    forall u | u in left
      ensures left[u] == right[u]
    {
    }
  }

  class GLContext {
    /** Texture names are handed out from here; every live name is below it. */
    var nextTexture: nat
    var liveTextures: set<nat>
    var images: map<nat, Image>
    /** Texture unit -> bound texture; a unit missing from the map has none. */
    var units: map<nat, TextureRef>
    var drawBuffers: seq<GLenum>
    var drawFramebuffer: nat

    ghost predicate Valid()
      reads this
    {
      forall t :: t in liveTextures ==> t < nextTexture
    }

    constructor ()
      ensures Valid()
      ensures nextTexture == 1 && liveTextures == {} && images == map[] && units == map[]
      ensures drawBuffers == [] && drawFramebuffer == 0
    {
      nextTexture := 1;
      liveTextures := {};
      images := map[];
      units := map[];
      drawBuffers := [];
      drawFramebuffer := 0;
    }

    /** glGenTextures: a name that is not in use. */
    method GenTexture() returns (t: nat)
      requires Valid()
      modifies this`nextTexture, this`liveTextures
      ensures Valid()
      ensures t == old(nextTexture) && t !in old(liveTextures)
      ensures liveTextures == old(liveTextures) + {t}
      ensures nextTexture == old(nextTexture) + 1
    {
      t := nextTexture;
      liveTextures := liveTextures + {t};
      nextTexture := nextTexture + 1;
    }

    /** glTexImage2D on texture `t`. */
    method TexImage2D(t: nat, image: Image)
      modifies this`images
      ensures images == old(images)[t := image]
    {
      images := images[t := image];
    }

    /** Deleting a texture object (glDeleteTextures), which frees its
        storage and unbinds it from every texture unit that holds it. */
    method DeleteTexture(t: nat)
      requires Valid()
      modifies this`liveTextures, this`units, this`images
      ensures Valid()
      ensures liveTextures == old(liveTextures) - {t}
      ensures images == old(images) - {t}
      ensures units == Unbind(old(units), {t})
    {
      liveTextures := liveTextures - {t};
      images := images - {t};
      units := Unbind(units, {t});
    }

    /** glDeleteFramebuffers: a framebuffer bound for drawing when it is
        deleted leaves the default framebuffer 0 bound in its place. */
    method DeleteFramebuffer(id: nat)
      modifies this`drawFramebuffer
      ensures drawFramebuffer == if old(drawFramebuffer) == id then 0 else old(drawFramebuffer)
    {
      if drawFramebuffer == id {
        drawFramebuffer := 0;
      }
    }

    /** Binding a texture to a texture unit. */
    method BindTexture(unit: nat, t: TextureRef)
      modifies this`units
      ensures units == old(units)[unit := t]
    {
      units := units[unit := t];
    }

    /** glDrawBuffers. */
    method DrawBuffers(buffers: seq<GLenum>)
      modifies this`drawBuffers
      ensures drawBuffers == buffers
    {
      drawBuffers := buffers;
    }

    /** glBindFramebuffer(GL_DRAW_FRAMEBUFFER, id). */
    method BindDrawFramebuffer(id: nat)
      modifies this`drawFramebuffer
      ensures drawFramebuffer == id
    {
      drawFramebuffer := id;
    }
  }
}

=== FILE: gl_enums.dfy ===
/**
 * The OpenGL enumerants the framebuffer passes around.  In the program they
 * are all plain `GLenum` integers; here they are one abstract datatype with a
 * constructor per enumerant the framebuffer names.
 */
module GL {

  datatype GLenum =
    | GlNone
    // channel layouts (the `format` argument of glTexImage2D)
    | Rgb
    | Rgba
    | DepthComponent
    // component datatypes (the `type` argument of glTexImage2D)
    | HalfFloat
    | Float
    | UnsignedShort
    | UnsignedInt
    // sized internal formats
    | Rgb16F
    | Rgb16UI
    | Rgb32F
    | Rgb32UI
    | Rgba16F
    | Rgba16UI
    | Rgba32F
    | Rgba32UI
    | DepthComponent32F
    // framebuffer attachment points
    | DepthAttachment
    | ColorAttachment(index: nat)  // GL_COLOR_ATTACHMENT0 + index
    // every enumerant not named above; the encoding is canonical: a value
    // that has a constructor of its own is always written with it, so
    // `OtherEnum(c)` only ever carries a code no constructor above stands for
    | OtherEnum(code: int)

  /** The numeric value OpenGL gives each enumerant. */
  function Code(e: GLenum): int
  {
    match e
    case GlNone => 0
    case Rgb => 0x1907
    case Rgba => 0x1908
    case DepthComponent => 0x1902
    case HalfFloat => 0x140B
    case Float => 0x1406
    case UnsignedShort => 0x1403
    case UnsignedInt => 0x1405
    case Rgb16F => 0x881B
    case Rgb16UI => 0x8D77
    case Rgb32F => 0x8815
    case Rgb32UI => 0x8D71
    case Rgba16F => 0x881A
    case Rgba16UI => 0x8D76
    case Rgba32F => 0x8814
    case Rgba32UI => 0x8D70
    case DepthComponent32F => 0x8CAC
    case DepthAttachment => 0x8D00
    case ColorAttachment(k) => 0x8CE0 + k
    case OtherEnum(c) => c
  }
}

/** An optional value, for searches that may find nothing. */
module Wrappers {

  datatype Option<+T> = None | Some(value: T)
}

=== FILE: registry.dfy ===
/**
 * The attachment registry of a framebuffer as a value: the name-keyed map of
 * attachments and the count of colour attachments, the slot rule, and the
 * effect of one `attach` on them.  The lemmas follow the registry through any
 * sequence of `attach` calls.
 */
module AttachmentRegistry {
  import opened GL
  import opened Formats

  /** The texture object an attachment owns, by its OpenGL name; NoTexture is
      the null pointer of a value-initialised entry. */
  datatype TextureRef = NoTexture | Texture(id: nat)

  /** One named attachment: its texture, its three formats and its slot. */
  datatype Attachment = Attachment(
    name: string,
    texture: TextureRef,
    textureFormat: GLenum,
    colorFormat: GLenum,
    dataType: GLenum,
    slot: GLenum)

  /** The entry `operator[]` creates for a name that is not in the map: every
      member zero, so an empty name, a null texture and GL_NONE everywhere. */
  const DefaultAttachment := Attachment("", NoTexture, GlNone, GlNone, GlNone, GlNone)

  datatype Registry = Registry(attachments: map<string, Attachment>, colorCount: nat)

  /** A registry with nothing attached, as a new framebuffer has. */
  const EmptyRegistry := Registry(map[], 0)

  /** One `attach(name, format)` call of a sequence, with the texture name the
      call is handed if it gets as far as creating a texture. */
  datatype AttachCall = AttachCall(name: string, format: GLenum, texture: nat)

  /** The slot a new attachment of `format` takes: the single depth slot for
      the depth format, otherwise the next colour slot. */
  function FindAttachmentSlot(format: GLenum, colorCount: nat): GLenum
  {
    if format == DepthComponent32F then DepthAttachment else ColorAttachment(colorCount)
  }

  /** std::map::insert: adds the pair only when the key is absent, and
      otherwise keeps the value already stored. */
  function Insert(m: map<string, Attachment>, key: string, value: Attachment): (r: map<string, Attachment>)
    ensures r.Keys == m.Keys + {key}
    ensures forall k :: k in m ==> r[k] == m[k]
    ensures key !in m ==> r[key] == value
  {
    if key in m then m else m[key := value]
  }

  /** The entry `attach` builds for a supported format. */
  function NewEntry(name: string, format: GLenum, texture: nat, colorCount: nat): Attachment
  {
    Attachment(name, Texture(texture), format, GetColorFormat(format), GetDatatype(format),
               FindAttachmentSlot(format, colorCount))
  }

  /** The registry after `attach(name, format)` that is handed `texture`. */
  function AfterAttach(r: Registry, name: string, format: GLenum, texture: nat): Registry
  {
    if !IsSupported(format) then r
    else
      Registry(Insert(r.attachments, name, NewEntry(name, format, texture, r.colorCount)),
               if format != DepthComponent32F then r.colorCount + 1 else r.colorCount)
  }

  /** An entry that `attach` stored under `key` while the colour count was
      below `colorCount`, or a value-initialised entry. */
  ghost predicate EntryOk(key: string, a: Attachment, colorCount: nat)
  {
    a == DefaultAttachment ||
    (&& a.name == key
     && IsSupported(a.textureFormat)
     && a.texture.Texture?
     && a.colorFormat == GetColorFormat(a.textureFormat)
     && a.dataType == GetDatatype(a.textureFormat)
     && (if a.textureFormat == DepthComponent32F then a.slot == DepthAttachment
         else a.slot.ColorAttachment? && a.slot.index < colorCount))
  }

  /** The registry invariant: every entry is well formed, and no two entries
      share a colour slot. */
  ghost predicate WellFormed(r: Registry)
  {
    && (forall k :: k in r.attachments ==> EntryOk(k, r.attachments[k], r.colorCount))
    && (forall k, j :: k in r.attachments && j in r.attachments && k != j && r.attachments[k].slot.ColorAttachment?
          ==> r.attachments[k].slot != r.attachments[j].slot)
  }

  /** One `attach`: a rejected format changes nothing; an accepted one stores
      a new entry under a new name with the depth slot or colour slot
      `colorCount`, and raises the colour count exactly for colour formats,
      whether or not the name was already taken. */
  lemma AttachAssignsSlot(r: Registry, name: string, format: GLenum, texture: nat)
    ensures !IsSupported(format) ==> AfterAttach(r, name, format, texture) == r
    ensures IsSupported(format) ==>
      AfterAttach(r, name, format, texture).colorCount == r.colorCount + (if IsColorFormat(format) then 1 else 0)
    ensures IsSupported(format) && name !in r.attachments ==>
      && name in AfterAttach(r, name, format, texture).attachments
      && AfterAttach(r, name, format, texture).attachments[name] == NewEntry(name, format, texture, r.colorCount)
      && AfterAttach(r, name, format, texture).attachments[name].texture == Texture(texture)
      && AfterAttach(r, name, format, texture).attachments[name].slot ==
         if format == DepthComponent32F then DepthAttachment else ColorAttachment(r.colorCount)
    ensures name in r.attachments ==> AfterAttach(r, name, format, texture).attachments == r.attachments
  {
  }

  /** An entry already stored is never replaced by `attach`, whatever name
      and format the call uses. */
  lemma AttachKeepsEntry(r: Registry, name: string, format: GLenum, texture: nat, key: string)
    requires key in r.attachments
    ensures key in AfterAttach(r, name, format, texture).attachments
    ensures AfterAttach(r, name, format, texture).attachments[key] == r.attachments[key]
  {
  }

  /** `attach` keeps the registry invariant. */
  lemma AttachPreservesWellFormed(r: Registry, name: string, format: GLenum, texture: nat)
    requires WellFormed(r)
    ensures WellFormed(AfterAttach(r, name, format, texture))
  {
    var r' := AfterAttach(r, name, format, texture);
    if IsSupported(format) && name !in r.attachments {
      forall k | k in r'.attachments
        ensures EntryOk(k, r'.attachments[k], r'.colorCount)
      {
        if k in r.attachments {
          assert EntryOk(k, r.attachments[k], r.colorCount);
        }
      }
      forall k, j | k in r'.attachments && j in r'.attachments && k != j && r'.attachments[k].slot.ColorAttachment?
        ensures r'.attachments[k].slot != r'.attachments[j].slot
      {
        if k == name {
          assert EntryOk(j, r.attachments[j], r.colorCount);
        } else if j == name {
          assert EntryOk(k, r.attachments[k], r.colorCount);
        }
      }
    }
  }

  /** A name already present keeps its entry: the texture a repeated
      `attach` creates is not recorded, so nothing will release it, while a
      colour format still raises the count. */
  lemma DuplicateAttachLeaks(r: Registry, name: string, format: GLenum, texture: nat)
    requires name in r.attachments && IsColorFormat(format)
    requires forall k :: k in r.attachments ==> r.attachments[k].texture != Texture(texture)
    ensures AfterAttach(r, name, format, texture).attachments == r.attachments
    ensures AfterAttach(r, name, format, texture).colorCount == r.colorCount + 1
    ensures forall k :: k in AfterAttach(r, name, format, texture).attachments ==>
      AfterAttach(r, name, format, texture).attachments[k].texture != Texture(texture)
  {
  }

  /** The registry after a sequence of `attach` calls, the last call last. */
  function Replay(r: Registry, calls: seq<AttachCall>): Registry
    decreases |calls|
  {
    if calls == [] then r
    else
      var last := calls[|calls| - 1];
      AfterAttach(Replay(r, calls[..|calls| - 1]), last.name, last.format, last.texture)
  }

  /** Reference count: how many calls of the sequence name a colour format. */
  function ColorCalls(calls: seq<AttachCall>): nat
    decreases |calls|
  {
    if calls == [] then 0
    else ColorCalls(calls[..|calls| - 1]) + (if IsColorFormat(calls[|calls| - 1].format) then 1 else 0)
  }

  /** After any sequence of calls the colour count has grown by the number of
      calls with a supported non-depth format. */
  lemma {:induction false} ReplayColorCount(r: Registry, calls: seq<AttachCall>)
    ensures Replay(r, calls).colorCount == r.colorCount + ColorCalls(calls)
    decreases |calls|
  {
    if calls != [] {
      ReplayColorCount(r, calls[..|calls| - 1]);
    }
  }

  /** Any sequence of calls keeps the registry invariant. */
  lemma {:induction false} ReplayWellFormed(r: Registry, calls: seq<AttachCall>)
    requires WellFormed(r)
    ensures WellFormed(Replay(r, calls))
    decreases |calls|
  {
    if calls != [] {
      var last := calls[|calls| - 1];
      ReplayWellFormed(r, calls[..|calls| - 1]);
      AttachPreservesWellFormed(Replay(r, calls[..|calls| - 1]), last.name, last.format, last.texture);
    }
  }

  /** An entry, once stored, is never replaced by a later `attach`. */
  lemma {:induction false} ReplayKeepsEntry(r: Registry, calls: seq<AttachCall>, name: string)
    requires name in r.attachments
    ensures name in Replay(r, calls).attachments
    ensures Replay(r, calls).attachments[name] == r.attachments[name]
    decreases |calls|
  {
    if calls != [] {
      ReplayKeepsEntry(r, calls[..|calls| - 1], name);
    }
  }

  /** A name that no accepted call uses stays absent. */
  lemma {:induction false} ReplayKeepsAbsent(r: Registry, calls: seq<AttachCall>, name: string)
    requires name !in r.attachments
    requires forall j :: 0 <= j < |calls| && IsSupported(calls[j].format) ==> calls[j].name != name
    ensures name !in Replay(r, calls).attachments
    decreases |calls|
  {
    if calls != [] {
      ReplayKeepsAbsent(r, calls[..|calls| - 1], name);
    }
  }

  /** Colour calls in the first k + 1 calls: those in the first k, plus one
      when call k names a colour format. */
  lemma ColorCallsStep(calls: seq<AttachCall>, k: nat)
    requires k < |calls|
    ensures ColorCalls(calls[..k + 1]) == ColorCalls(calls[..k]) + (if IsColorFormat(calls[k].format) then 1 else 0)
  {
    assert calls[..k + 1][..k] == calls[..k];
  }

  /** Replaying the first k + 1 calls is replaying the first k, then
      call k. */
  lemma ReplayStep(r: Registry, calls: seq<AttachCall>, k: nat)
    requires k < |calls|
    ensures Replay(r, calls[..k + 1]) == AfterAttach(Replay(r, calls[..k]), calls[k].name, calls[k].format, calls[k].texture)
  {
    assert calls[..k + 1][..k] == calls[..k];
  }

  /** An accepted `attach` of a new name stores the entry built from the
      colour count the registry had. */
  lemma AttachStoresNew(r: Registry, name: string, format: GLenum, texture: nat, count: nat)
    requires IsSupported(format) && name !in r.attachments && r.colorCount == count
    ensures name in AfterAttach(r, name, format, texture).attachments
    ensures AfterAttach(r, name, format, texture).attachments[name] == NewEntry(name, format, texture, count)
  {
  }

  /** Call i, when it is accepted and the first to use its name, stores the
      entry `attach` builds for it, numbered after the colour calls before
      it. */
  lemma ReplayStoresEntry(r: Registry, calls: seq<AttachCall>, i: nat, k: nat)
    requires k == i + 1 && k <= |calls| && IsSupported(calls[i].format)
    requires calls[i].name !in r.attachments
    requires forall j :: 0 <= j < i && IsSupported(calls[j].format) ==> calls[j].name != calls[i].name
    ensures calls[i].name in Replay(r, calls[..k]).attachments
    ensures Replay(r, calls[..k]).attachments[calls[i].name] ==
      NewEntry(calls[i].name, calls[i].format, calls[i].texture, r.colorCount + ColorCalls(calls[..i]))
  {
    var call := calls[i];
    var before := Replay(r, calls[..i]);
    assert Replay(r, calls[..k]) == AfterAttach(before, call.name, call.format, call.texture) by {
      ReplayStep(r, calls, i);
    }
    assert call.name !in before.attachments by {
      ReplayKeepsAbsent(r, calls[..i], call.name);
    }
    assert before.colorCount == r.colorCount + ColorCalls(calls[..i]) by {
      ReplayColorCount(r, calls[..i]);
    }
    AttachStoresNew(before, call.name, call.format, call.texture, r.colorCount + ColorCalls(calls[..i]));
  }

  /** Replaying two sequences one after the other is replaying the first,
      then the second from where it left off. */
  lemma {:induction false} ReplayAppend(r: Registry, s: seq<AttachCall>, t: seq<AttachCall>)
    ensures Replay(r, s + t) == Replay(Replay(r, s), t)
    decreases |t|
  {
    if t == [] {
      assert s + t == s;
    } else {
      var n := |t| - 1;
      assert (s + t)[..|s + t| - 1] == s + t[..n];
      assert (s + t)[|s + t| - 1] == t[n];
      ReplayAppend(r, s, t[..n]);
    }
  }

  /** Creation-order slot numbering: the accepted call at position i that is
      the first to use its name is the entry stored under that name, and a
      colour call receives colour slot colorCount + k, where k is the number
      of colour calls before it. */
  lemma ReplayEntry(r: Registry, calls: seq<AttachCall>, i: nat)
    requires i < |calls| && IsSupported(calls[i].format)
    requires calls[i].name !in r.attachments
    requires forall j :: 0 <= j < i && IsSupported(calls[j].format) ==> calls[j].name != calls[i].name
    ensures calls[i].name in Replay(r, calls).attachments
    ensures Replay(r, calls).attachments[calls[i].name] ==
      NewEntry(calls[i].name, calls[i].format, calls[i].texture, r.colorCount + ColorCalls(calls[..i]))
  {
    ReplayStoresEntry(r, calls, i, i + 1);
    ReplayKeepsEntry(Replay(r, calls[..i + 1]), calls[i + 1..], calls[i].name);
    ReplayAppend(r, calls[..i + 1], calls[i + 1..]);
    assert calls[..i + 1] + calls[i + 1..] == calls;
  }

  /** A colour call that is the first accepted call with its name receives
      colour slot colorCount + k, k being the number of colour calls before
      it. */
  lemma ColorCallSlot(r: Registry, calls: seq<AttachCall>, i: nat)
    requires i < |calls| && IsColorFormat(calls[i].format)
    requires calls[i].name !in r.attachments
    requires forall j :: 0 <= j < i && IsSupported(calls[j].format) ==> calls[j].name != calls[i].name
    ensures calls[i].name in Replay(r, calls).attachments
    ensures Replay(r, calls).attachments[calls[i].name].slot == ColorAttachment(r.colorCount + ColorCalls(calls[..i]))
  {
    ReplayEntry(r, calls, i);
  }

  /** The colour calls of two sequences run one after the other add up. */
  lemma {:induction false} ColorCallsAppend(s: seq<AttachCall>, t: seq<AttachCall>)
    ensures ColorCalls(s + t) == ColorCalls(s) + ColorCalls(t)
    decreases |t|
  {
    if t == [] {
      assert s + t == s;
    } else {
      var n := |t| - 1;
      assert (s + t)[..|s + t| - 1] == s + t[..n];
      assert (s + t)[|s + t| - 1] == t[n];
      ColorCallsAppend(s, t[..n]);
    }
  }

  /** The colour calls before position m are those before n, call n, and
      those strictly between n and m. */
  lemma ColorCallsSplit(calls: seq<AttachCall>, n: nat, m: nat)
    requires n < m <= |calls|
    ensures ColorCalls(calls[..m]) ==
      ColorCalls(calls[..n]) + (if IsColorFormat(calls[n].format) then 1 else 0) + ColorCalls(calls[n + 1..m])
  {
    ColorCallsStep(calls, n);
    assert calls[..m] == calls[..n + 1] + calls[n + 1..m];
    ColorCallsAppend(calls[..n + 1], calls[n + 1..m]);
  }

  /** Two colour calls at positions n < m, each the first accepted call
      with its name, receive colour slots in call order: the later one's slot
      is the earlier one's plus one plus the colour calls between them. */
  lemma OrderedColorSlots(r: Registry, calls: seq<AttachCall>, n: nat, m: nat)
    requires n < m < |calls|
    requires IsColorFormat(calls[n].format) && IsColorFormat(calls[m].format)
    requires calls[n].name != calls[m].name
    requires calls[n].name !in r.attachments && calls[m].name !in r.attachments
    requires forall j :: 0 <= j < m && j != n && IsSupported(calls[j].format) ==>
      calls[j].name != calls[n].name && calls[j].name != calls[m].name
    ensures calls[n].name in Replay(r, calls).attachments
    ensures calls[m].name in Replay(r, calls).attachments
    ensures Replay(r, calls).attachments[calls[n].name].slot == ColorAttachment(r.colorCount + ColorCalls(calls[..n]))
    ensures Replay(r, calls).attachments[calls[m].name].slot ==
      ColorAttachment(r.colorCount + ColorCalls(calls[..n]) + 1 + ColorCalls(calls[n + 1..m]))
  {
    assert calls[n].name in Replay(r, calls).attachments &&
           Replay(r, calls).attachments[calls[n].name].slot == ColorAttachment(r.colorCount + ColorCalls(calls[..n])) by {
      ColorCallSlot(r, calls, n);
    }
    assert calls[m].name in Replay(r, calls).attachments &&
           Replay(r, calls).attachments[calls[m].name].slot == ColorAttachment(r.colorCount + ColorCalls(calls[..m])) by {
      ColorCallSlot(r, calls, m);
    }
    ColorCallsSplit(calls, n, m);
  }

  /** The calls with those at positions n and m exchanged. */
  function Exchange(calls: seq<AttachCall>, n: nat, m: nat): (swapped: seq<AttachCall>)
    requires n < m < |calls|
    ensures |swapped| == |calls|
    ensures swapped[n] == calls[m] && swapped[m] == calls[n]
    ensures forall j :: 0 <= j < |calls| && j != n && j != m ==> swapped[j] == calls[j]
  {
    calls[n := calls[m]][m := calls[n]]
  }

  /** Slot assignment follows call order: exchanging two fresh colour
      attaches at positions n < m, with the calls before m using neither
      name, exchanges their slots. */
  lemma ReplaySwap(r: Registry, calls: seq<AttachCall>, n: nat, m: nat)
    requires n < m < |calls|
    requires IsColorFormat(calls[n].format) && IsColorFormat(calls[m].format)
    requires calls[n].name != calls[m].name
    requires calls[n].name !in r.attachments && calls[m].name !in r.attachments
    requires forall j :: 0 <= j < m && j != n && IsSupported(calls[j].format) ==>
      calls[j].name != calls[n].name && calls[j].name != calls[m].name
    ensures calls[n].name in Replay(r, calls).attachments
    ensures calls[m].name in Replay(r, calls).attachments
    ensures calls[n].name in Replay(r, Exchange(calls, n, m)).attachments
    ensures calls[m].name in Replay(r, Exchange(calls, n, m)).attachments
    ensures Replay(r, calls).attachments[calls[n].name].slot ==
            Replay(r, Exchange(calls, n, m)).attachments[calls[m].name].slot
    ensures Replay(r, calls).attachments[calls[m].name].slot ==
            Replay(r, Exchange(calls, n, m)).attachments[calls[n].name].slot
  {
    var swapped := Exchange(calls, n, m);
    assert swapped[..n] == calls[..n];
    assert swapped[n + 1..m] == calls[n + 1..m];
    OrderedColorSlots(r, calls, n, m);
    OrderedColorSlots(r, swapped, n, m);
  }
}
